=== FILE: README.md ===
# Cost center mirror batch, modelled in Dafny

The cost center mirror batch reads CSV request files from a request directory and
mirrors their lines into one remote Sciforma data view. A line either creates or
updates a cost center. After handling each file, the batch moves it to a results
directory marked `_OK` or `_KO` and saves its log, before it parses the next file.
When the table cannot be locked, it moves every file `_KO` without parsing it.
At the end it returns a return code.

This project models `CostCenterMirrorProcessor.process` and its private helpers
as one pure function:

    Processor.Process(props, env): Outcome(code, trace)

- `props` holds the three directory properties.
- `env` fixes in advance everything `process` learns from outside:
  - whether the request folder exists;
  - what `Files.walk` yields, or that it throws;
  - the timestamp read when each file is moved;
  - what `CsvParser.parse` gives for each file;
  - whether connecting and locking succeed;
  - the data view that is read;
  - for each line, how many setter calls complete before the remote side throws.
- `trace` is the ordered list of effects:
  - the walk;
  - the connection, lock and data-view read;
  - each parse;
  - each remote create or update, with the setter calls it completed;
  - each move and each log save, with its OK/KO status;
  - the two cleanup calls of the `finally` block.

Modules:

- `Wrappers`: `Option`.
- `Text`: the string operations used (`endsWith`, `lastIndexOf`, `toLowerCase`).
- `FileNames`:
  - the walk filter;
  - `getFileNameWithoutExtension`, through `File.getName` and the `[.][^.]+$` replacement;
  - the outcome names `moveFile` builds.
- `Mirror`:
  - cost center lines and data-view rows;
  - `findRow`;
  - the setter calls of `createRow` and `updateRow`, and their effect on a row.
- `Processor`:
  - the return codes, the environment and the events;
  - the per-line policy, the per-file `try`/`finally` and the two file loops;
  - `validateProperties`;
  - `process` itself.
- `ProcessorProperties`: the lemmas that relate the trace of `process` to its
  return code, its gates and its files.

Three behaviours of the code are easy to misread. The model keeps each as written:

- **Cleanup is called on every path past the request-folder check.** The `finally`
  block calls `saveAndCloseGlobal` even when the lock was never acquired, and then
  `closeConnection`. This covers no request file, a failed walk, a failed
  connection, a failed lock and an unusable data view (`CleanupOnce`). The model
  records both calls and treats them as returning normally; see "## Left out" for
  the paths on which the first call throws.
- **First match wins.** An update goes to the first matching row in data-view
  order, even when later rows carry the same key (`FindRow`, `ApplyLinePolicy`).
- **A failed walk falls through to SUCCESS.** An `IOException` from the directory
  walk is caught and logged. Then the cleanup runs and `process` reaches its final
  `return ReturnCode.SUCCESS` (`NothingToProcess`). See "## Left out" for why a
  fresh service throws here instead.
- **Updates change the data view in place; the model keeps it as read.** An update's
  setter calls go to the row object that `findRow` returned, which is an element of
  the data-view list that later lines search again. The model keeps the table as it
  was read and records each write in the trace. This loses nothing for the lookups:
  an update writes no key cell, so every line finds the same row before and after
  it (`UpdateKeepsMatches`).

## Model

| member | source | states |
|---|---|---|
| Processor.Process | cost-center-mirror/src/com/schneider/mstt/cost/center/mirror/processor/CostCenterMirrorProcessor.java:50-232 | The return code belongs to the first gate that fails, in the order: properties, request folder, a request file found, connection, lock, usable data view. Each code is stated as an if-and-only-if over the environment. SUCCESS is returned exactly when every gate passes or no request file is found. Nothing happens before the walk when the properties or the folder fail. Otherwise the walk comes first, and the trace ends with save-and-close of the global, then closing the connection. |
| Processor.ValidateProperties | cost-center-mirror/src/com/schneider/mstt/cost/center/mirror/processor/CostCenterMirrorProcessor.java:273-289 | The properties are valid exactly when each of the request, results and logs directories is non-null and non-empty. |
| Mirror.FindRow | cost-center-mirror/src/com/schneider/mstt/cost/center/mirror/processor/CostCenterMirrorProcessor.java:234-254 | The result is a row whose three readable key cells equal the line's key. No earlier row matches. The result is empty exactly when no row matches. Rows whose key cells cannot be read are passed over. |
| Processor.Attempt | cost-center-mirror/src/com/schneider/mstt/cost/center/mirror/processor/CostCenterMirrorProcessor.java:133-159 | A create or update applies its setter calls in order. Exactly as many take effect as the remote side allowed before throwing, or all of them. The write counts as completed exactly when every setter call took effect, and that is the only way `status` can be set. |
| Processor.ApplyLinePolicy | cost-center-mirror/src/com/schneider/mstt/cost/center/mirror/processor/CostCenterMirrorProcessor.java:124-166 | A create is attempted exactly when no data-view row matches its key, and goes to a new row. An update is attempted exactly when one does, and goes to the first matching row. Any other line is rejected without a write. |
| Processor.ApplyLines | cost-center-mirror/src/com/schneider/mstt/cost/center/mirror/processor/CostCenterMirrorProcessor.java:112-168 | A file's lines write at most one event each, all of them writes. The file's status is true exactly when at least one of those writes completed. |
| ProcessorProperties.LineWritesInOrder | cost-center-mirror/src/com/schneider/mstt/cost/center/mirror/processor/CostCenterMirrorProcessor.java:119-168 | Line k adds exactly its own create or update, with the setter budget of line k, right after the writes of the lines before it. Later lines only append, so no line's writes are dropped or reordered. |
| ProcessorProperties.StatusSticks | cost-center-mirror/src/com/schneider/mstt/cost/center/mirror/processor/CostCenterMirrorProcessor.java:112-168 | Lines run in file order. The writes of the first k lines are a prefix of the writes of all lines. A status set by an earlier line is never cleared by a later one. |
| ProcessorProperties.StatusIffSomeLineCompletes | cost-center-mirror/src/com/schneider/mstt/cost/center/mirror/processor/CostCenterMirrorProcessor.java:112-168 | A file's status is true exactly when at least one of its lines completes its create or update, each line judged on its own data-view match and its own setter calls. A rejected line or a write that throws does not stop the loop. |
| Processor.FileRun | cost-center-mirror/src/com/schneider/mstt/cost/center/mirror/processor/CostCenterMirrorProcessor.java:114-172 | A file whose parse throws `FileException` writes nothing and keeps status false. Otherwise its status is true exactly when one of its writes completed. |
| ProcessorProperties.FileEffects | cost-center-mirror/src/com/schneider/mstt/cost/center/mirror/processor/CostCenterMirrorProcessor.java:105-176 | One file is parsed once, first, and writes what its lines wrote. Its last two events are one move and then one log save, both with the status its lines reached, even after a parse failure. |
| ProcessorProperties.FileLoopEffects | cost-center-mirror/src/com/schneider/mstt/cost/center/mirror/processor/CostCenterMirrorProcessor.java:105-180 | The file loop parses each file once in discovery order. It moves each file once and saves its log once, in the same order, each with that file's status. |
| ProcessorProperties.FilesIndependent | cost-center-mirror/src/com/schneider/mstt/cost/center/mirror/processor/CostCenterMirrorProcessor.java:99-124 | The loop over two runs of files is the loop over the first followed by the loop over the second. Every line is matched against the one data view read before the loop. |
| ProcessorProperties.StaleDataViewDuplicatesCreate | cost-center-mirror/src/com/schneider/mstt/cost/center/mirror/processor/CostCenterMirrorProcessor.java:99-137 | The data view is never refreshed. Two identical creates of a key it lacks are both attempted and both complete, although the row the first creates carries the key the second one looks for. |
| ProcessorProperties.RejectAllEffects | cost-center-mirror/src/com/schneider/mstt/cost/center/mirror/processor/CostCenterMirrorProcessor.java:194-205 | The lock-failure loop moves every discovered file KO and saves its log KO, once each, in discovery order. |
| ProcessorProperties.LockFailure | cost-center-mirror/src/com/schneider/mstt/cost/center/mirror/processor/CostCenterMirrorProcessor.java:188-207 | When the lock fails, the batch returns FAILED_TO_LOCK_TABLE. No data view is read and nothing is parsed or written. Every discovered file is moved KO with its log saved KO, once each, in discovery order. |
| ProcessorProperties.ConnectFailure | cost-center-mirror/src/com/schneider/mstt/cost/center/mirror/processor/CostCenterMirrorProcessor.java:210-215 | When the connection fails, the batch returns MSTT_ACCESS. It does not lock, read, parse, write, move or log anything. |
| ProcessorProperties.DataViewFailure | cost-center-mirror/src/com/schneider/mstt/cost/center/mirror/processor/CostCenterMirrorProcessor.java:99-186 | When the data view is null or empty, the batch returns FAILED_TO_ACCESS_TABLE. Nothing is parsed, written, moved or logged, so the request files stay where they are. |
| ProcessorProperties.ProcessedFiles | cost-center-mirror/src/com/schneider/mstt/cost/center/mirror/processor/CostCenterMirrorProcessor.java:102-182 | When every gate passes, the batch returns SUCCESS. Each discovered file is parsed, moved and logged exactly once, in discovery order. Its status is OK exactly when one of its writes completed. |
| ProcessorProperties.NothingToProcess | cost-center-mirror/src/com/schneider/mstt/cost/center/mirror/processor/CostCenterMirrorProcessor.java:75-83 | When the walk finds no request file, or throws, the batch returns SUCCESS. Its trace is only the walk and the two cleanup calls. The walk's `IOException` is caught and the code falls through to the final return. |
| ProcessorProperties.CleanupOnce | cost-center-mirror/src/com/schneider/mstt/cost/center/mirror/processor/CostCenterMirrorProcessor.java:217-226 | Once the walk has been attempted, save-and-close of the global and closing the connection each happen exactly once, whatever the return code. Neither happens when the batch stops before the walk. |
| ProcessorProperties.GateOrder | cost-center-mirror/src/com/schneider/mstt/cost/center/mirror/processor/CostCenterMirrorProcessor.java:75-102 | The gates are reached in order: walk, connect, lock, data view. Each gate is reached only when the one before it passed. Connecting happens exactly when the batch started and the walk found a request file. |
| ProcessorProperties.FilesNeedGates | cost-center-mirror/src/com/schneider/mstt/cost/center/mirror/processor/CostCenterMirrorProcessor.java:89-105 | Files are touched only when the connection succeeded and a lock was tried. A file is parsed or written only when a usable data view was read. Stated over the gate list, without positions. |
| ProcessorProperties.FilesAfterGates | cost-center-mirror/src/com/schneider/mstt/cost/center/mirror/processor/CostCenterMirrorProcessor.java:89-105 | Positions in the trace: every parse, write, move and log save comes after a successful connection, which in turn comes before a lock attempt. Every parse and write comes after a successful read of a usable data view. |
| ProcessorProperties.MovedFilesNotRediscovered | cost-center-mirror/src/com/schneider/mstt/cost/center/mirror/processor/CostCenterMirrorProcessor.java:291-303 | A later walk that also sees every path a batch moved files to selects exactly what it would select without them. Outcome files are never picked up again. |
| FileNames.DiscoverSpec | cost-center-mirror/src/com/schneider/mstt/cost/center/mirror/processor/CostCenterMirrorProcessor.java:77-79 | The walk keeps a path exactly when it ends in `.csv` but not in `_OK.csv` or `_KO.csv`. It keeps each such path as often as the walk found it. |
| FileNames.DiscoverAppend | cost-center-mirror/src/com/schneider/mstt/cost/center/mirror/processor/CostCenterMirrorProcessor.java:77-79 | Filtering keeps walk order: filtering two runs of paths is filtering each in turn. |
| FileNames.DiscoverIgnores | cost-center-mirror/src/com/schneider/mstt/cost/center/mirror/processor/CostCenterMirrorProcessor.java:77-79 | Paths that are not request files never change what the walk selects. |
| FileNames.OutcomeNaming | cost-center-mirror/src/com/schneider/mstt/cost/center/mirror/processor/CostCenterMirrorProcessor.java:291-303 | An outcome name starts with the file's stem, `_` and the timestamp. It is exactly as long as those plus a seven-character suffix, and the timestamp sits right after the stem and `_`. It ends in `_OK.csv` exactly when the status is true and in `_KO.csv` exactly when it is false. It is never a request file, and neither is its full path in the results directory. |
| FileNames.StripExtensionSpec | cost-center-mirror/src/com/schneider/mstt/cost/center/mirror/processor/CostCenterMirrorProcessor.java:311-325 | Removing the extension yields a prefix of the name. What it drops is a dot followed by at least one character and no further dot. The name is left unchanged only when no suffix of it has that form. |
| FileNames.BaseNameSpec | cost-center-mirror/src/com/schneider/mstt/cost/center/mirror/processor/CostCenterMirrorProcessor.java:316 | The file name is the longest suffix of the path that holds no separator. |
| Mirror.FieldSets | cost-center-mirror/src/com/schneider/mstt/cost/center/mirror/processor/CostCenterMirrorProcessor.java:256-271 | A create sets all six columns. An update sets exactly last-update-by, last-update-date and status, and never a key column. |
| Mirror.CreateWritesLine | cost-center-mirror/src/com/schneider/mstt/cost/center/mirror/processor/CostCenterMirrorProcessor.java:256-264 | A completed create leaves a row that the matcher finds for the line's key. The row holds the line's other values, with the status lower-cased. |
| Mirror.PartialCreateCarriesKey | cost-center-mirror/src/com/schneider/mstt/cost/center/mirror/processor/CostCenterMirrorProcessor.java:256-264 | A create whose setters throw after the three key columns are set still leaves a new row that carries the line's key. The matcher would find that row. |
| Mirror.UpdateWritesLine | cost-center-mirror/src/com/schneider/mstt/cost/center/mirror/processor/CostCenterMirrorProcessor.java:266-271 | A completed update writes the line's last-update-by, last-update-date and lower-cased status. |
| Mirror.UpdateKeepsKey | cost-center-mirror/src/com/schneider/mstt/cost/center/mirror/processor/CostCenterMirrorProcessor.java:266-271 | However many of the update's setter calls complete before one throws, the row's key cells are unchanged, so a row that matched a key still matches it. |
| Mirror.UpdateKeepsMatches | cost-center-mirror/src/com/schneider/mstt/cost/center/mirror/processor/CostCenterMirrorProcessor.java:148-155 | Updating a table row in place, however many setter calls complete, leaves every line matching that row exactly as before. Every line's lookup finds the same row. |
| Text.ToLower | cost-center-mirror/src/com/schneider/mstt/cost/center/mirror/processor/CostCenterMirrorProcessor.java:262 | Lower-casing keeps the length. It leaves no upper-case letter, maps each upper-case letter to its lower-case one and keeps every other character. |

## Left out

- Logging, the `StopWatch` timings and the Spring wiring change neither the return code nor any file or remote effect. They are not modelled. Log files appear only as the save with its OK/KO status, not their messages.
- Creating the results and logs directories with `mkdirs` (lines 63-71) affects no return code and is not modelled.
- `CsvParser` is not part of this model. Its result for each file is a parameter: the lines, or a `FileException`.
- The remote service, `SciformaService`, is a set of parameters:
  - whether `createConnection` succeeds;
  - whether `openGlobal` succeeds;
  - what `getDataView` returns;
  - how many setter calls of each write complete before a `PSException`.
  A `PSException` thrown by `createDataViewRow` itself is a write that completes no setter call.
- The value `saveAndCloseGlobal` returns is ignored by `process` and is not modelled.
- The failure of the cleanup on three paths is not modelled. Only `openGlobal` and `getDataView` create the service's global (`SciformaService.java` lines 78-80 and 103-105). It is still null in a fresh service when the batch finds no request file (line 83), when the walk throws `IOException` (line 217) and when the connection fails (line 214).
  - On those paths, `saveAndCloseGlobal` dereferences the null global (`SciformaService.java` lines 127 and 136). The resulting `NullPointerException` is not a `PSException`, so nothing catches it and it escapes the `finally` block at line 221.
  - `process` then throws in place of returning SUCCESS or MSTT_ACCESS, and `closeConnection` (line 224) is never called.
  - The model treats both cleanup calls as returning normally. The clauses and lemmas below therefore hold only when the service already holds a global on those paths, for example one created by an earlier batch in the same process.
- Processor.Process: its SUCCESS clause for a batch with no request file or a failed walk, and its MSTT_ACCESS clause, assume the cleanup returns normally (see above).
- ProcessorProperties.NothingToProcess: assumes the cleanup returns normally; a fresh service throws `NullPointerException` here in place of SUCCESS.
- ProcessorProperties.ConnectFailure: assumes the cleanup returns normally; a fresh service throws `NullPointerException` here in place of MSTT_ACCESS.
- ProcessorProperties.CleanupOnce: records the call to `closeConnection` on every started path. With a fresh service that call is never reached when no request file was found, when the walk failed or when the connection failed.
- The paths a walk yields are assumed distinct, as `Files.walk` never repeats a path. The parse result, the setter budgets and the timestamp depend on the path alone, so a repeated path would be parsed again with the same lines, although its file had already been moved.
- Runtime exceptions in general are not modelled. This covers a null action, a null status or a directory entry that disappears mid-walk. An `UncheckedIOException` raised lazily while the walk stream is consumed is also left out. Only an `IOException` at the start of the walk is modelled.
- The move is recorded as an attempt. `Files.move` failures are swallowed by `moveFile` (lines 302-306) and are not modelled. Neither is the overwrite of an existing outcome file of the same name.
- The timestamp format `yyyyMMddHHmmss` is not modelled. The timestamp is an arbitrary string per moved file. So the collision of two files with the same stem moved within the same second is not modelled either.
- FileNames.FileStem: assumes the discovered file still exists when its name is taken. `getFileNameWithoutExtension` returns the empty string for a missing file or on any exception.
- FileNames.BaseName: the path separator is fixed to `/`.
- Text.ToLower: lower-cases ASCII letters only, not the locale-dependent Unicode mapping of `String.toLowerCase`.
- `Action` has exactly the two values CREATION and UPDATE, so every line is either a create or an update.

=== FILE: file_names.dfy ===
/** Discovery of request files and the names processed files are moved to
    (`CostCenterMirrorProcessor.process`, `moveFile`, `getFileNameWithoutExtension`). */
module FileNames {
  import opened Wrappers
  import opened Text

  type Path = string

  /** `File.separator` on the platform the batch runs on. */
  const Separator: char := '/'

  const RequestSuffix: string := ".csv"
  const OkSuffix: string := "_OK.csv"
  const KoSuffix: string := "_KO.csv"

  /** The walk filter: a CSV file that does not already carry an outcome marker. */
  predicate IsRequestFile(path: Path) {
    EndsWith(path, RequestSuffix) && !EndsWith(path, OkSuffix) && !EndsWith(path, KoSuffix)
  }

  /** The walked paths that the filter keeps, in walk order. */
  function Discover(found: seq<Path>): (selected: seq<Path>)
    ensures |selected| <= |found|
    decreases |found|
  {
    if |found| == 0 then []
    else (if IsRequestFile(found[0]) then [found[0]] else []) + Discover(found[1..])
  }

  /** The walk keeps exactly the request files it found, each as often as it was found. */
  lemma {:induction false} DiscoverSpec(found: seq<Path>)
    ensures forall p :: p in Discover(found) <==> p in found && IsRequestFile(p)
    ensures forall p :: multiset(Discover(found))[p] == if IsRequestFile(p) then multiset(found)[p] else 0
    decreases |found|
  {
    if |found| > 0 {
      var head := if IsRequestFile(found[0]) then [found[0]] else [];
      DiscoverSpec(found[1..]);
      assert found == [found[0]] + found[1..];
      assert multiset(found) == multiset([found[0]]) + multiset(found[1..]);
      assert multiset(Discover(found)) == multiset(head) + multiset(Discover(found[1..]));
    }
  }

  /** Filtering a concatenation filters each part, keeping walk order. */
  lemma {:induction false} DiscoverAppend(a: seq<Path>, b: seq<Path>)
    ensures Discover(a + b) == Discover(a) + Discover(b)
    decreases |a|
  {
    if |a| == 0 {
      assert a + b == b;
    } else {
      var head := if IsRequestFile(a[0]) then [a[0]] else [];
      assert (a + b)[0] == a[0];
      assert (a + b)[1..] == a[1..] + b;
      DiscoverAppend(a[1..], b);
      assert head + (Discover(a[1..]) + Discover(b)) == head + Discover(a[1..]) + Discover(b);
    }
  }

  /** `File.getName`: the part of the path after its last separator. */
  function BaseName(path: Path): string {
    match LastIndexOf(path, Separator)
    case None => path
    case Some(i) => path[i + 1..]
  }

  /** The base name is the longest suffix of the path free of separators. */
  lemma BaseNameSpec(path: Path)
    ensures var name := BaseName(path);
      && Separator !in name
      && EndsWith(path, name)
      && (|name| < |path| ==> path[|path| - |name| - 1] == Separator)
  {
  }

  /** What the pattern `[.][^.]+$` matches: a dot followed by at least one character and no further dot. */
  predicate IsExtension(e: string) {
    |e| >= 2 && e[0] == '.' && forall j :: 1 <= j < |e| ==> e[j] != '.'
  }

  /** `name.replaceFirst("[.][^.]+$", "")`: drops the extension when there is one. */
  function StripExtension(name: string): string {
    match LastIndexOf(name, '.')
    case None => name
    case Some(i) => if i < |name| - 1 then name[..i] else name
  }

  /** Stripping removes exactly an extension, and leaves a name alone only when no
      suffix of it is an extension. */
  lemma StripExtensionSpec(name: string)
    ensures var stem := StripExtension(name);
      && stem <= name
      && (|stem| < |name| ==> IsExtension(name[|stem|..]))
      && (|stem| == |name| ==> forall k :: 0 <= k < |name| ==> !IsExtension(name[k..]))
  {
  }

  /** `getFileNameWithoutExtension` of a file that exists: the name the log and the outcome file are built from. */
  function FileStem(path: Path): string {
    StripExtension(BaseName(path))
  }

  /** The name `moveFile` builds: stem, `_`, timestamp, `_`, `OK` or `KO`, `.csv`. */
  function OutcomeFileName(path: Path, stamp: string, status: bool): string {
    FileStem(path) + "_" + stamp + (if status then OkSuffix else KoSuffix)
  }

  /** The path a processed file is moved to inside the results directory. */
  function OutcomePath(results: string, path: Path, stamp: string, status: bool): Path {
    results + [Separator] + OutcomeFileName(path, stamp, status)
  }

  /** The outcome marker is the only thing that decides which suffixes a name carries. */
  lemma OutcomeSuffixes(head: string, status: bool)
    ensures var name := head + (if status then OkSuffix else KoSuffix);
      && (EndsWith(name, OkSuffix) <==> status)
      && (EndsWith(name, KoSuffix) <==> !status)
      && EndsWith(name, RequestSuffix)
      && head + "_" <= name
  {
    var tail := if status then OkSuffix else KoSuffix;
    EndsWithAfter(head, tail, OkSuffix);
    EndsWithAfter(head, tail, KoSuffix);
    EndsWithAfter(head, tail, RequestSuffix);
    assert OkSuffix[1] != KoSuffix[1];
  }

  /** An outcome name starts with the file's stem and the timestamp, ends in
      `_OK.csv` exactly when the status is true and in `_KO.csv` otherwise, and so
      is never a request file; the same holds of the full path in the results directory. */
  lemma OutcomeNaming(results: string, path: Path, stamp: string, status: bool)
    ensures var name := OutcomeFileName(path, stamp, status);
      && FileStem(path) + "_" + stamp + "_" <= name
      && |name| == |FileStem(path)| + 1 + |stamp| + |OkSuffix|
      && name[|FileStem(path)| + 1..|FileStem(path)| + 1 + |stamp|] == stamp
      && (EndsWith(name, OkSuffix) <==> status)
      && (EndsWith(name, KoSuffix) <==> !status)
      && !IsRequestFile(name)
    ensures var target := OutcomePath(results, path, stamp, status);
      && (EndsWith(target, OkSuffix) <==> status)
      && (EndsWith(target, KoSuffix) <==> !status)
      && !IsRequestFile(target)
  {
    var name := OutcomeFileName(path, stamp, status);
    OutcomeSuffixes(FileStem(path) + "_" + stamp, status);
    EndsWithAfter(results + [Separator], name, OkSuffix);
    EndsWithAfter(results + [Separator], name, KoSuffix);
    EndsWithAfter(results + [Separator], name, RequestSuffix);
  }

  /** Paths that are not request files never change what a walk selects. */
  lemma {:induction false} DiscoverIgnores(found: seq<Path>, others: seq<Path>)
    requires forall q :: q in others ==> !IsRequestFile(q)
    ensures Discover(found + others) == Discover(found)
  {
    DiscoverAppend(found, others);
    assert Discover(others) == [] by {
      DiscoverSpec(others);
      assert forall q :: q !in Discover(others);
    }
    assert Discover(found) + [] == Discover(found);
  }
}

=== FILE: mirror.dfy ===
/** The "Cost center mirror" data view: request lines, remote rows, the row
    matcher and the field writes of `createRow` / `updateRow`. */
module Mirror {
  import opened Wrappers
  import opened Text

  datatype Action = Creation | Update

  /** One parsed request line. */
  datatype CostCenter = CostCenter(
    action: Action,
    internalCostCenterId: string,
    secondMirrorGccId: string,
    secondMirrorGccRe: string,
    lastUpdateBy: string,
    lastUpdate: int,
    status: string)

  /** The six columns of the data view. */
  datatype Field =
    | InternalCostCenterId
    | SecondMirrorGccId
    | SecondMirrorGccRe
    | LastUpdateBy
    | LastUpdateDate
    | Status

  /** The column names as the remote table spells them. */
  function FieldName(f: Field): string {
    match f
    case InternalCostCenterId => "Internal cost center ID"
    case SecondMirrorGccId => "Secondary mirror global cost center ID"
    case SecondMirrorGccRe => "Secondary mirror global cost center RE"
    case LastUpdateBy => "Last update by"
    case LastUpdateDate => "Last update date"
    case Status => "Status"
  }

  /** Distinct columns have distinct names, so a row keyed by `Field` holds the
      same cells as one keyed by the column names the source uses. */
  lemma FieldNamesDistinct(f: Field, g: Field)
    ensures FieldName(f) == FieldName(g) <==> f == g
  {
  }

  const AllFields: set<Field> :=
    {InternalCostCenterId, SecondMirrorGccId, SecondMirrorGccRe, LastUpdateBy, LastUpdateDate, Status}

  /** The three columns of the composite key. */
  predicate IsKey(f: Field) {
    f.InternalCostCenterId? || f.SecondMirrorGccId? || f.SecondMirrorGccRe?
  }

  datatype Value = StringValue(text: string) | DateValue(millis: int)

  /** A cell whose read throws `PSException` is `Unreadable`. */
  datatype Cell = Unreadable | Readable(value: Value)

  /** A row of the data view; a column absent from the map cannot be read either. */
  type DataViewRow = map<Field, Cell>

  /** `getStringField(f)` succeeds and equals `s`. */
  predicate Reads(row: DataViewRow, f: Field, s: string) {
    f in row && row[f] == Readable(StringValue(s))
  }

  /** The row carries the line's composite key, every key cell readable. */
  predicate Matches(row: DataViewRow, line: CostCenter) {
    && Reads(row, InternalCostCenterId, line.internalCostCenterId)
    && Reads(row, SecondMirrorGccId, line.secondMirrorGccId)
    && Reads(row, SecondMirrorGccRe, line.secondMirrorGccRe)
  }

  /** `findRow`: the position of the first row, in data-view order, that matches;
      rows whose key cells cannot be read are passed over. */
  function FindRow(rows: seq<DataViewRow>, line: CostCenter): (found: Option<nat>)
    ensures found.Some? ==> found.value < |rows| && Matches(rows[found.value], line)
    ensures found.Some? ==> forall j :: 0 <= j < found.value ==> !Matches(rows[j], line)
    ensures found.None? <==> forall j :: 0 <= j < |rows| ==> !Matches(rows[j], line)
    decreases |rows|
  {
    if |rows| == 0 then None
    else if Matches(rows[0], line) then Some(0)
    else
      match FindRow(rows[1..], line)
      case None => None
      case Some(i) => Some(i + 1)
  }

  /** One `setStringField` / `setDateField` call. */
  datatype Assignment = Assignment(field: Field, value: Value)

  function FieldsOf(writes: seq<Assignment>): set<Field> {
    set a | a in writes :: a.field
  }

  /** The setter calls of `createRow`, in call order. */
  function CreateAssignments(line: CostCenter): seq<Assignment> {
    [
      Assignment(InternalCostCenterId, StringValue(line.internalCostCenterId)),
      Assignment(SecondMirrorGccId, StringValue(line.secondMirrorGccId)),
      Assignment(SecondMirrorGccRe, StringValue(line.secondMirrorGccRe)),
      Assignment(LastUpdateBy, StringValue(line.lastUpdateBy)),
      Assignment(LastUpdateDate, DateValue(line.lastUpdate)),
      Assignment(Status, StringValue(ToLower(line.status)))]
  }

  /** The setter calls of `updateRow`, in call order: never a key column. */
  function UpdateAssignments(line: CostCenter): seq<Assignment> {
    [Assignment(LastUpdateBy, StringValue(line.lastUpdateBy)),
     Assignment(LastUpdateDate, DateValue(line.lastUpdate)),
     Assignment(Status, StringValue(ToLower(line.status)))]
  }

  /** A create sets every column; an update sets exactly the three mutable ones
      and never a key column. */
  lemma FieldSets(line: CostCenter)
    ensures FieldsOf(CreateAssignments(line)) == AllFields
    ensures FieldsOf(UpdateAssignments(line)) == {LastUpdateBy, LastUpdateDate, Status}
    ensures forall a :: a in UpdateAssignments(line) ==> !IsKey(a.field)
  {
  }

  /** No later assignment in `writes` overrides the one at `i`. */
  predicate LastFor(writes: seq<Assignment>, i: nat)
    requires i < |writes|
  {
    forall j :: i < j < |writes| ==> writes[j].field != writes[i].field
  }

  /** The row after the setter calls `writes` completed, in order. */
  function Apply(row: DataViewRow, writes: seq<Assignment>): (updated: DataViewRow)
    ensures updated.Keys == row.Keys + FieldsOf(writes)
    ensures forall f :: f in row && f !in FieldsOf(writes) ==> updated[f] == row[f]
    ensures forall i :: 0 <= i < |writes| && LastFor(writes, i) ==> updated[writes[i].field] == Readable(writes[i].value)
    decreases |writes|
  {
    if |writes| == 0 then row
    else
      var w := writes[0];
      assert FieldsOf(writes) == {w.field} + FieldsOf(writes[1..]) by {
        assert writes == [w] + writes[1..];
      }
      var rest := Apply(row[w.field := Readable(w.value)], writes[1..]);
      assert forall i :: 1 <= i < |writes| && LastFor(writes, i) ==> LastFor(writes[1..], i - 1);
      rest
  }

  /** A completed `createRow` leaves a row that carries the line's key, so the
      matcher would find it, and the line's other values, the status lower-cased. */
  lemma CreateWritesLine(row: DataViewRow, line: CostCenter)
    ensures var created := Apply(row, CreateAssignments(line));
      && Matches(created, line)
      && created[LastUpdateBy] == Readable(StringValue(line.lastUpdateBy))
      && created[LastUpdateDate] == Readable(DateValue(line.lastUpdate))
      && created[Status] == Readable(StringValue(ToLower(line.status)))
  {
    var writes := CreateAssignments(line);
    assert forall i :: 0 <= i < 6 ==> LastFor(writes, i);
    assert writes[0].field == InternalCostCenterId && writes[1].field == SecondMirrorGccId;
    assert writes[2].field == SecondMirrorGccRe && writes[3].field == LastUpdateBy;
    assert writes[4].field == LastUpdateDate && writes[5].field == Status;
  }

  /** A `createRow` whose setters throw after the three key columns are set still
      leaves a new row carrying the line's key: the matcher would find it. */
  lemma PartialCreateCarriesKey(row: DataViewRow, line: CostCenter, completed: nat)
    requires 3 <= completed <= |CreateAssignments(line)|
    ensures Matches(Apply(row, CreateAssignments(line)[..completed]), line)
  {
    var writes := CreateAssignments(line)[..completed];
    assert forall i :: 0 <= i < completed ==> writes[i] == CreateAssignments(line)[i];
    assert LastFor(writes, 0) && LastFor(writes, 1) && LastFor(writes, 2);
  }

  /** A completed `updateRow` writes the line's three mutable values. */
  lemma UpdateWritesLine(row: DataViewRow, line: CostCenter)
    ensures var updated := Apply(row, UpdateAssignments(line));
      && updated[LastUpdateBy] == Readable(StringValue(line.lastUpdateBy))
      && updated[LastUpdateDate] == Readable(DateValue(line.lastUpdate))
      && updated[Status] == Readable(StringValue(ToLower(line.status)))
  {
    var writes := UpdateAssignments(line);
    assert forall i :: 0 <= i < 3 ==> LastFor(writes, i);
    assert writes[0].field == LastUpdateBy && writes[1].field == LastUpdateDate && writes[2].field == Status;
  }

  /** However many of `updateRow`'s setters complete before one throws, the key
      cells of the updated row are those it had, so a row that matched still matches. */
  lemma UpdateKeepsKey(row: DataViewRow, line: CostCenter, completed: nat, other: CostCenter)
    requires completed <= |UpdateAssignments(line)|
    ensures var updated := Apply(row, UpdateAssignments(line)[..completed]);
      && (forall f :: IsKey(f) ==> (f in updated <==> f in row))
      && (forall f :: IsKey(f) && f in row ==> updated[f] == row[f])
      && (Matches(row, other) ==> Matches(updated, other))
  {
    var writes := UpdateAssignments(line)[..completed];
    assert FieldsOf(writes) <= FieldsOf(UpdateAssignments(line));
  }

  /** The row found for a line depends only on which rows match it. */
  lemma FindRowByMatches(a: seq<DataViewRow>, b: seq<DataViewRow>, line: CostCenter)
    requires |a| == |b|
    requires forall j :: 0 <= j < |a| ==> (Matches(a[j], line) <==> Matches(b[j], line))
    ensures FindRow(a, line) == FindRow(b, line)
  {
  }

  /** Updating row `i` of the table in place, however many of its setters
      completed, finds the same row for every line as before: the update writes no
      key cell, so no row starts or stops matching. */
  lemma UpdateKeepsMatches(table: seq<DataViewRow>, i: nat, line: CostCenter, completed: nat, other: CostCenter)
    requires i < |table| && completed <= |UpdateAssignments(line)|
    ensures var updated := table[i := Apply(table[i], UpdateAssignments(line)[..completed])];
      && (Matches(updated[i], other) <==> Matches(table[i], other))
      && FindRow(updated, other) == FindRow(table, other)
  {
    var updated := table[i := Apply(table[i], UpdateAssignments(line)[..completed])];
    UpdateKeepsKey(table[i], line, completed, other);
    assert IsKey(InternalCostCenterId) && IsKey(SecondMirrorGccId) && IsKey(SecondMirrorGccRe);
    assert Matches(updated[i], other) <==> Matches(table[i], other);
    FindRowByMatches(updated, table, other);
  }
}

=== FILE: processor.dfy ===
/** `CostCenterMirrorProcessor.process` as a pure function of its configuration
    and of the outcomes of everything it calls outside itself, returning the
    return code together with the trace of the effects it performs. */
module Processor {
  import opened Wrappers
  import opened Text
  import opened FileNames
  import opened Mirror

  datatype ReturnCode =
    | Success
    | MissingProperties
    | MissingRequestFolder
    | MsttAccess
    | FailedToLockTable
    | FailedToAccessTable

  /** The three directory properties; `None` is an unset (null) property. */
  datatype Properties = Properties(
    requestDirectory: Option<string>,
    resultsDirectory: Option<string>,
    logsDirectory: Option<string>)

  /** What `CsvParser.parse` gives for one file: a `FileException` or its lines. */
  datatype Parsed = FileError | Lines(lines: seq<CostCenter>)

  /** Everything `process` learns from the file system, the clock and the remote
      server, fixed in advance:
      - `walk`: the paths `Files.walk` yields, `None` when it throws `IOException`;
      - `stamp(path)`: the formatted time `moveFile` reads when it moves `path`;
      - `dataView`: the rows `getDataView` returns, `None` for null;
      - `setters(path, k)`: how many setter calls of the write for line `k` of `path`
        complete before one throws `PSException` (at least the number of setters
        means the write completes). */
  datatype Environment = Environment(
    requestFolderExists: bool,
    walk: Option<seq<Path>>,
    stamp: Path -> string,
    parse: Path -> Parsed,
    connects: bool,
    locks: bool,
    dataView: Option<seq<DataViewRow>>,
    setters: (Path, nat) -> nat)

  /** The row a write goes to: one from `createDataViewRow`, or a data-view row by position. */
  datatype Target = NewRow | SnapshotRow(index: nat)

  datatype EventKind =
    | WalkKind | ConnectKind | LockKind | ReadKind
    | ParseKind | WriteKind | MoveKind | LogKind
    | SaveAndCloseKind | LogoutKind

  /** The effects of `process`, in the order it performs them. */
  datatype Event =
    | Walk(root: string, ok: bool)
    | Connect(ok: bool)
    | Lock(ok: bool)
    | ReadDataView(ok: bool)
    | Parse(path: Path)
    | Write(target: Target, applied: seq<Assignment>, ok: bool)
    | Move(source: Path, ok: bool)       // moveFile(source, ok), see MoveTarget
    | SaveLog(source: Path, ok: bool)    // saveLogFile(ok) of the log named FileStem(source) in the logs directory
    | SaveAndCloseGlobal
    | CloseConnection
  {
    function Kind(): EventKind {
      match this
      case Walk(_, _) => WalkKind
      case Connect(_) => ConnectKind
      case Lock(_) => LockKind
      case ReadDataView(_) => ReadKind
      case Parse(_) => ParseKind
      case Write(_, _, _) => WriteKind
      case Move(_, _) => MoveKind
      case SaveLog(_, _) => LogKind
      case SaveAndCloseGlobal => SaveAndCloseKind
      case CloseConnection => LogoutKind
    }
  }

  const GateKinds: set<EventKind> := {WalkKind, ConnectKind, LockKind, ReadKind}
  const FileKinds: set<EventKind> := {ParseKind, WriteKind, MoveKind, LogKind}

  datatype Outcome = Outcome(code: ReturnCode, trace: seq<Event>)

  /** The events of `t` whose kind is in `kinds`, in trace order. */
  function Only(t: seq<Event>, kinds: set<EventKind>): (r: seq<Event>)
    ensures |r| <= |t|
    decreases |t|
  {
    if |t| == 0 then []
    else (if t[0].Kind() in kinds then [t[0]] else []) + Only(t[1..], kinds)
  }

  /** Some write of `t` completed. */
  predicate SomeWriteOk(t: seq<Event>) {
    exists i :: 0 <= i < |t| && t[i].Write? && t[i].ok
  }

  predicate Present(property: Option<string>) {
    property.Some? && |property.value| > 0
  }

  /** `validateProperties`: each directory property is checked in turn. */
  function ValidateProperties(props: Properties): (valid: bool)
    ensures valid <==> Present(props.requestDirectory) && Present(props.resultsDirectory) && Present(props.logsDirectory)
  {
    if props.requestDirectory.None? || |props.requestDirectory.value| == 0 then false
    else if props.resultsDirectory.None? || |props.resultsDirectory.value| == 0 then false
    else if props.logsDirectory.None? || |props.logsDirectory.value| == 0 then false
    else true
  }

  /** Where `moveFile` puts the file of a `Move` event: the results directory,
      under the outcome name built from the file's name, the time of the move and
      the status. */
  function MoveTarget(results: string, stamp: Path -> string, e: Event): Path
    requires e.Move?
  {
    OutcomePath(results, e.source, stamp(e.source), e.ok)
  }

  /** One create or update whose first `budget` setter calls complete: the setters
      run in order, so exactly that many take effect before one throws. */
  function Attempt(target: Target, intended: seq<Assignment>, budget: nat): (e: Event)
    ensures e.Write? && e.target == target
    ensures e.applied <= intended
    ensures |e.applied| == if budget < |intended| then budget else |intended|
    ensures e.ok <==> e.applied == intended
    ensures e.ok <==> budget >= |intended|
  {
    if budget < |intended| then Write(target, intended[..budget], false)
    else Write(target, intended, true)
  }

  /** The body of the per-line loop: match the line against the data view, then
      create, update or reject it. */
  function ApplyLine(table: seq<DataViewRow>, line: CostCenter, budget: nat): (r: seq<Event>)
    ensures |r| <= 1
    ensures |r| == 1 ==> r[0].Write?
  {
    var existing := FindRow(table, line);
    match line.action
    case Creation =>
      if existing.Some? then [] else [Attempt(NewRow, CreateAssignments(line), budget)]
    case Update =>
      if existing.None? then [] else [Attempt(SnapshotRow(existing.value), UpdateAssignments(line), budget)]
  }

  /** What one line does: a create is attempted exactly when no row matches its key
      and goes to a new row; an update is attempted exactly when a row matches and
      goes to the first such row; either applies its first `budget` setter calls, all
      of them when the budget allows, and a line that is not attempted is rejected. */
  lemma ApplyLinePolicy(table: seq<DataViewRow>, line: CostCenter, budget: nat)
    ensures var r := ApplyLine(table, line, budget);
      var intended := if line.action == Creation then CreateAssignments(line) else UpdateAssignments(line);
      && (line.action == Creation ==> (|r| == 1 <==> FindRow(table, line).None?))
      && (line.action == Update ==> (|r| == 1 <==> FindRow(table, line).Some?))
      && (|r| == 1 && line.action == Creation ==> r[0].target == NewRow)
      && (|r| == 1 && line.action == Update ==>
            r[0].target == SnapshotRow(FindRow(table, line).value)
            && Matches(table[r[0].target.index], line))
      && (|r| == 1 ==> r[0].applied <= intended && (r[0].ok <==> r[0].applied == intended))
      && (|r| == 1 ==> |r[0].applied| == if budget < |intended| then budget else |intended|)
      && (|r| == 1 ==> (r[0].ok <==> budget >= |intended|))
  {
  }

  /** The status of a file and the writes of its lines. */
  datatype LineRun = LineRun(status: bool, events: seq<Event>)

  /** The per-line loop over the lines of `path`: `status` starts false and is set
      by each completed write. */
  function ApplyLines(table: seq<DataViewRow>, path: Path, lines: seq<CostCenter>, setters: (Path, nat) -> nat): (run: LineRun)
    ensures |run.events| <= |lines|
    ensures forall i :: 0 <= i < |run.events| ==> run.events[i].Write?
    ensures run.status <==> SomeWriteOk(run.events)
    decreases |lines|
  {
    if |lines| == 0 then LineRun(false, [])
    else
      var before := ApplyLines(table, path, lines[..|lines| - 1], setters);
      var step := ApplyLine(table, lines[|lines| - 1], setters(path, |lines| - 1));
      var events := before.events + step;
      assert forall i :: 0 <= i < |before.events| ==> events[i] == before.events[i];
      assert |step| == 1 ==> events[|events| - 1] == step[0];
      LineRun(before.status || (|step| == 1 && step[0].ok), events)
  }

  /** What the `try` block does with one file: parse it, then run its lines. */
  function FileRun(env: Environment, table: seq<DataViewRow>, path: Path): (run: LineRun)
    ensures env.parse(path).FileError? ==> run.events == [] && !run.status
    ensures forall i :: 0 <= i < |run.events| ==> run.events[i].Write?
    ensures run.status <==> SomeWriteOk(run.events)
  {
    match env.parse(path)
    case FileError => LineRun(false, [])
    case Lines(lines) => ApplyLines(table, path, lines, env.setters)
  }

  /** One iteration of the file loop: the `try` block, then the `finally` block that
      moves the file and saves its log with the status the block reached. */
  function ProcessFile(env: Environment, table: seq<DataViewRow>, path: Path): seq<Event> {
    var run := FileRun(env, table, path);
    [Parse(path)] + run.events + [Move(path, run.status), SaveLog(path, run.status)]
  }

  /** What the lock-failure branch does with one file: move it KO and save its log KO. */
  function RejectFile(path: Path): seq<Event> {
    [Move(path, false), SaveLog(path, false)]
  }

  /** The events of `step` for each path in turn, in discovery order. */
  function ForEach(paths: seq<Path>, step: Path -> seq<Event>): seq<Event>
    decreases |paths|
  {
    if |paths| == 0 then []
    else ForEach(paths[..|paths| - 1], step) + step(paths[|paths| - 1])
  }

  /** The iteration of the file loop, every file matched against the same data view. */
  function FileStep(env: Environment, table: seq<DataViewRow>): Path -> seq<Event> {
    path => ProcessFile(env, table, path)
  }

  /** The file loop. */
  function ProcessFiles(env: Environment, table: seq<DataViewRow>, paths: seq<Path>): seq<Event> {
    ForEach(paths, FileStep(env, table))
  }

  /** The lock-failure branch: every discovered file is moved KO and its log saved. */
  function RejectAll(paths: seq<Path>): seq<Event> {
    ForEach(paths, RejectFile)
  }

  /** The data view is usable: neither null nor empty. */
  predicate Usable(dataView: Option<seq<DataViewRow>>) {
    dataView.Some? && |dataView.value| > 0
  }

  /** The walk found at least one request file. */
  predicate HasRequests(env: Environment) {
    env.walk.Some? && |Discover(env.walk.value)| > 0
  }

  /** The body of the `try`-with-resources block, up to the `finally` block. */
  function RunBatch(env: Environment): Outcome {
    match env.walk
    case None => Outcome(Success, [])
    case Some(found) =>
      var paths := Discover(found);
      if |paths| == 0 then Outcome(Success, [])
      else if !env.connects then Outcome(MsttAccess, [Connect(false)])
      else if !env.locks then Outcome(FailedToLockTable, [Connect(true), Lock(false)] + RejectAll(paths))
      else if !Usable(env.dataView) then Outcome(FailedToAccessTable, [Connect(true), Lock(true), ReadDataView(false)])
      else Outcome(Success, [Connect(true), Lock(true), ReadDataView(true)] + ProcessFiles(env, env.dataView.value, paths))
  }

  /** The batch gets past the two checks before the walk. */
  predicate Starts(props: Properties, env: Environment) {
    ValidateProperties(props) && env.requestFolderExists
  }

  /** `process`. The return code is decided by the first gate that fails, in the
      order properties, request folder, discovery, connection, lock, data view;
      once the walk has been attempted the `finally` block saves and closes the
      global and then closes the connection, on every path. */
  function Process(props: Properties, env: Environment): (out: Outcome)
    ensures out.code == MissingProperties <==> !ValidateProperties(props)
    ensures out.code == MissingRequestFolder <==> ValidateProperties(props) && !env.requestFolderExists
    ensures out.code == MsttAccess <==> Starts(props, env) && HasRequests(env) && !env.connects
    ensures out.code == FailedToLockTable <==> Starts(props, env) && HasRequests(env) && env.connects && !env.locks
    ensures out.code == FailedToAccessTable <==>
      Starts(props, env) && HasRequests(env) && env.connects && env.locks && !Usable(env.dataView)
    ensures out.code == Success <==>
      Starts(props, env) && (!HasRequests(env) || (env.connects && env.locks && Usable(env.dataView)))
    ensures !Starts(props, env) ==> out.trace == []
    ensures Starts(props, env) ==>
      && |out.trace| >= 3
      && out.trace[0] == Walk(props.requestDirectory.value, env.walk.Some?)
      && out.trace[|out.trace| - 2..] == [SaveAndCloseGlobal, CloseConnection]
  {
    if !ValidateProperties(props) then Outcome(MissingProperties, [])
    else if !env.requestFolderExists then Outcome(MissingRequestFolder, [])
    else
      var body := RunBatch(env);
      Outcome(body.code, [Walk(props.requestDirectory.value, env.walk.Some?)] + body.trace + [SaveAndCloseGlobal, CloseConnection])
  }
}

=== FILE: processor_properties.dfy ===
/** What `process` promises about the effects it performs, stated over the trace
    `Processor.Process` returns. */
module ProcessorProperties {
  import opened Text
  import opened FileNames
  import opened Mirror
  import opened Processor

  /** Projecting a concatenation projects each part. */
  lemma {:induction false} OnlyAppend(a: seq<Event>, b: seq<Event>, kinds: set<EventKind>)
    ensures Only(a + b, kinds) == Only(a, kinds) + Only(b, kinds)
    decreases |a|
  {
    if |a| > 0 {
      assert (a + b)[1..] == a[1..] + b;
      OnlyAppend(a[1..], b, kinds);
    } else {
      assert a + b == b;
    }
  }

  /** Projecting onto kinds that every event has keeps the whole trace. */
  lemma {:induction false} OnlyAll(t: seq<Event>, kinds: set<EventKind>)
    requires forall i :: 0 <= i < |t| ==> t[i].Kind() in kinds
    ensures Only(t, kinds) == t
    decreases |t|
  {
    if |t| > 0 {
      OnlyAll(t[1..], kinds);
      assert t == [t[0]] + t[1..];
    }
  }

  /** Projecting onto kinds that no event has leaves nothing. */
  lemma {:induction false} OnlyNone(t: seq<Event>, kinds: set<EventKind>)
    requires forall i :: 0 <= i < |t| ==> t[i].Kind() !in kinds
    ensures Only(t, kinds) == []
    decreases |t|
  {
    if |t| > 0 {
      OnlyNone(t[1..], kinds);
    }
  }

  /** A trace that holds none of the kinds `a` holds none of any fewer kinds. */
  lemma {:induction false} OnlyNarrow(t: seq<Event>, a: set<EventKind>, b: set<EventKind>)
    requires Only(t, a) == [] && b <= a
    ensures Only(t, b) == []
    decreases |t|
  {
    if |t| > 0 {
      OnlyNarrow(t[1..], a, b);
    }
  }

  /** A three-part trace projects part by part. */
  lemma OnlySplit3(a: seq<Event>, b: seq<Event>, c: seq<Event>, kinds: set<EventKind>)
    ensures Only(a + b + c, kinds) == Only(a, kinds) + Only(b, kinds) + Only(c, kinds)
  {
    OnlyAppend(a + b, c, kinds);
    OnlyAppend(a, b, kinds);
  }

  /** The shape of one iteration of the file loop, whatever its lines wrote: one
      parse, the writes, then one move and one log save with the status reached. */
  lemma FileShape(path: Path, run: LineRun)
    requires forall i :: 0 <= i < |run.events| ==> run.events[i].Write?
    ensures var t := [Parse(path)] + run.events + [Move(path, run.status), SaveLog(path, run.status)];
      && Only(t, {ParseKind}) == [Parse(path)]
      && Only(t, {WriteKind}) == run.events
      && Only(t, {MoveKind}) == [Move(path, run.status)]
      && Only(t, {LogKind}) == [SaveLog(path, run.status)]
  {
    var tail := [Move(path, run.status), SaveLog(path, run.status)];
    OnlySplit3([Parse(path)], run.events, tail, {ParseKind});
    OnlySplit3([Parse(path)], run.events, tail, {WriteKind});
    OnlySplit3([Parse(path)], run.events, tail, {MoveKind});
    OnlySplit3([Parse(path)], run.events, tail, {LogKind});
    OnlyNone(run.events, {ParseKind});
    OnlyNone(run.events, {MoveKind});
    OnlyNone(run.events, {LogKind});
    OnlyAll(run.events, {WriteKind});
  }

  /** The events of one file: one parse, its writes, then one move and one log
      save, both with the status its lines reached. The parse comes first and the
      move and the log save come last, in that order. */
  lemma FileEffects(env: Environment, table: seq<DataViewRow>, path: Path)
    ensures var t := ProcessFile(env, table, path);
      var run := FileRun(env, table, path);
      && |t| == |run.events| + 3
      && t[0] == Parse(path)
      && t[|t| - 2..] == [Move(path, run.status), SaveLog(path, run.status)]
      && Only(t, {ParseKind}) == [Parse(path)]
      && Only(t, {WriteKind}) == run.events
      && Only(t, {MoveKind}) == [Move(path, run.status)]
      && Only(t, {LogKind}) == [SaveLog(path, run.status)]
  {
    FileShape(path, FileRun(env, table, path));
  }

  /** One file performs nothing but file events. */
  lemma FileAvoids(env: Environment, table: seq<DataViewRow>, path: Path, kinds: set<EventKind>)
    requires ParseKind !in kinds && WriteKind !in kinds && MoveKind !in kinds && LogKind !in kinds
    ensures Only(ProcessFile(env, table, path), kinds) == []
  {
    var run := FileRun(env, table, path);
    OnlySplit3([Parse(path)], run.events, [Move(path, run.status), SaveLog(path, run.status)], kinds);
    OnlyNone(run.events, kinds);
  }

  /** A loop over two runs of paths is the loop over the first, then over the second. */
  lemma {:induction false} ForEachAppend(a: seq<Path>, b: seq<Path>, step: Path -> seq<Event>)
    ensures ForEach(a + b, step) == ForEach(a, step) + ForEach(b, step)
    decreases |b|
  {
    if |b| == 0 {
      assert a + b == a;
    } else {
      var ab := a + b;
      var init := b[..|b| - 1];
      assert ab[..|ab| - 1] == a + init;
      assert ab[|ab| - 1] == b[|b| - 1];
      ForEachAppend(a, init, step);
      var x := ForEach(a, step);
      var y := ForEach(init, step);
      var z := step(b[|b| - 1]);
      assert x + y + z == x + (y + z);
    }
  }

  /** When each iteration performs exactly one event of the given kinds, the loop
      performs one per path, in path order. */
  lemma {:induction false} ForEachOne(paths: seq<Path>, step: Path -> seq<Event>, kinds: set<EventKind>)
    requires forall p :: |Only(step(p), kinds)| == 1
    ensures var picked := Only(ForEach(paths, step), kinds);
      && |picked| == |paths|
      && forall i :: 0 <= i < |paths| ==> picked[i] == Only(step(paths[i]), kinds)[0]
    decreases |paths|
  {
    if |paths| > 0 {
      var init := paths[..|paths| - 1];
      ForEachOne(init, step, kinds);
      OnlyAppend(ForEach(init, step), step(paths[|paths| - 1]), kinds);
    }
  }

  /** When no iteration performs an event of the given kinds, neither does the loop. */
  lemma {:induction false} ForEachAvoids(paths: seq<Path>, step: Path -> seq<Event>, kinds: set<EventKind>)
    requires forall p :: Only(step(p), kinds) == []
    ensures Only(ForEach(paths, step), kinds) == []
    decreases |paths|
  {
    if |paths| > 0 {
      var init := paths[..|paths| - 1];
      ForEachAvoids(init, step, kinds);
      OnlyAppend(ForEach(init, step), step(paths[|paths| - 1]), kinds);
    }
  }

  /** The file loop parses each discovered file once, in discovery order, and moves
      it and saves its log once each, with the status of its lines. */
  lemma FileLoopEffects(env: Environment, table: seq<DataViewRow>, paths: seq<Path>)
    ensures var t := ProcessFiles(env, table, paths);
      var parses := Only(t, {ParseKind});
      var moves := Only(t, {MoveKind});
      var logs := Only(t, {LogKind});
      && |parses| == |paths| && |moves| == |paths| && |logs| == |paths|
      && (forall i :: 0 <= i < |paths| ==> parses[i] == Parse(paths[i]))
      && (forall i :: 0 <= i < |paths| ==> moves[i] == Move(paths[i], FileRun(env, table, paths[i]).status))
      && (forall i :: 0 <= i < |paths| ==> logs[i] == SaveLog(paths[i], FileRun(env, table, paths[i]).status))
  {
    var step := FileStep(env, table);
    forall p ensures |Only(step(p), {ParseKind})| == 1 && |Only(step(p), {MoveKind})| == 1 && |Only(step(p), {LogKind})| == 1 {
      FileEffects(env, table, p);
    }
    ForEachOne(paths, step, {ParseKind});
    ForEachOne(paths, step, {MoveKind});
    ForEachOne(paths, step, {LogKind});
    forall i | 0 <= i < |paths| {
      FileEffects(env, table, paths[i]);
    }
  }

  /** The file loop performs nothing but file events. */
  lemma LoopAvoids(env: Environment, table: seq<DataViewRow>, paths: seq<Path>, kinds: set<EventKind>)
    requires ParseKind !in kinds && WriteKind !in kinds && MoveKind !in kinds && LogKind !in kinds
    ensures Only(ProcessFiles(env, table, paths), kinds) == []
  {
    forall p ensures Only(FileStep(env, table)(p), kinds) == [] {
      FileAvoids(env, table, p, kinds);
    }
    ForEachAvoids(paths, FileStep(env, table), kinds);
  }

  /** Files do not influence one another: the loop over two runs of files is the
      loop over the first followed by the loop over the second, since every line is
      matched against the one data view read before the loop and never refreshed. */
  lemma FilesIndependent(env: Environment, table: seq<DataViewRow>, a: seq<Path>, b: seq<Path>)
    ensures ProcessFiles(env, table, a + b) == ProcessFiles(env, table, a) + ProcessFiles(env, table, b)
  {
    ForEachAppend(a, b, FileStep(env, table));
  }

  /** The lock-failure branch moves every discovered file KO and saves its log KO,
      once each and in discovery order. */
  lemma RejectAllEffects(paths: seq<Path>)
    ensures var t := RejectAll(paths);
      var moves := Only(t, {MoveKind});
      var logs := Only(t, {LogKind});
      && |moves| == |paths| && |logs| == |paths|
      && (forall i :: 0 <= i < |paths| ==> moves[i] == Move(paths[i], false))
      && (forall i :: 0 <= i < |paths| ==> logs[i] == SaveLog(paths[i], false))
  {
    ForEachOne(paths, RejectFile, {MoveKind});
    ForEachOne(paths, RejectFile, {LogKind});
  }

  /** The lock-failure branch performs nothing but moves and log saves. */
  lemma RejectAvoids(paths: seq<Path>, kinds: set<EventKind>)
    requires MoveKind !in kinds && LogKind !in kinds
    ensures Only(RejectAll(paths), kinds) == []
  {
    ForEachAvoids(paths, RejectFile, kinds);
  }

  /** The trace of `process` once it starts: the walk, the `try` block, then the
      `finally` block, each projected on its own. */
  lemma TraceSplit(props: Properties, env: Environment, kinds: set<EventKind>)
    requires Starts(props, env)
    ensures Only(Process(props, env).trace, kinds) ==
      Only([Walk(props.requestDirectory.value, env.walk.Some?)], kinds)
      + Only(RunBatch(env).trace, kinds)
      + Only([SaveAndCloseGlobal, CloseConnection], kinds)
  {
    OnlySplit3([Walk(props.requestDirectory.value, env.walk.Some?)], RunBatch(env).trace, [SaveAndCloseGlobal, CloseConnection], kinds);
  }

  /** The `try` block when the walk finds nothing to process. */
  lemma IdleBody(env: Environment)
    requires !HasRequests(env)
    ensures RunBatch(env) == Outcome(Success, [])
  {
  }

  /** The `try` block when the connection fails. */
  lemma ConnectBody(env: Environment)
    requires HasRequests(env) && !env.connects
    ensures RunBatch(env) == Outcome(MsttAccess, [Connect(false)])
  {
  }

  /** The `try` block when the data view is null or empty. */
  lemma DataViewBody(env: Environment)
    requires HasRequests(env) && env.connects && env.locks && !Usable(env.dataView)
    ensures RunBatch(env) == Outcome(FailedToAccessTable, [Connect(true), Lock(true), ReadDataView(false)])
  {
  }

  /** The `try` block of the lock-failure branch. */
  lemma RejectBody(env: Environment)
    requires HasRequests(env) && env.connects && !env.locks
    ensures RunBatch(env).trace == [Connect(true), Lock(false)] + RejectAll(Discover(env.walk.value))
  {
  }

  /** The `try` block of the branch that processes the files. */
  lemma ProcessBody(env: Environment)
    requires HasRequests(env) && env.connects && env.locks && Usable(env.dataView)
    ensures RunBatch(env).trace ==
      [Connect(true), Lock(true), ReadDataView(true)] + ProcessFiles(env, env.dataView.value, Discover(env.walk.value))
  {
  }

  /** The kinds that only `process` itself, outside the `try` block, performs. */
  const OuterKinds: set<EventKind> := {WalkKind, SaveAndCloseKind, LogoutKind}

  /** The `try` block never walks again nor cleans up itself. */
  lemma BatchBodyKinds(env: Environment, kinds: set<EventKind>)
    requires kinds <= OuterKinds
    ensures Only(RunBatch(env).trace, kinds) == []
  {
    if !HasRequests(env) {
      IdleBody(env);
    } else if !env.connects {
      ConnectBody(env);
      OnlyNone([Connect(false)], kinds);
    } else if !env.locks {
      var paths := Discover(env.walk.value);
      var gates := [Connect(true), Lock(false)];
      RejectBody(env);
      RejectAvoids(paths, kinds);
      OnlyNone(gates, kinds);
      OnlyAppend(gates, RejectAll(paths), kinds);
    } else if !Usable(env.dataView) {
      DataViewBody(env);
      OnlyNone([Connect(true), Lock(true), ReadDataView(false)], kinds);
    } else {
      var paths := Discover(env.walk.value);
      var gates := [Connect(true), Lock(true), ReadDataView(true)];
      ProcessBody(env);
      LoopAvoids(env, env.dataView.value, paths, kinds);
      OnlyNone(gates, kinds);
      OnlyAppend(gates, ProcessFiles(env, env.dataView.value, paths), kinds);
    }
  }

  /** Once the walk has been attempted, `saveAndCloseGlobal` and `closeConnection`
      are each called exactly once, whatever the return code, and neither is called
      when the batch stops before the walk. */
  lemma CleanupOnce(props: Properties, env: Environment)
    ensures var t := Process(props, env).trace;
      && Only(t, {SaveAndCloseKind}) == (if Starts(props, env) then [SaveAndCloseGlobal] else [])
      && Only(t, {LogoutKind}) == (if Starts(props, env) then [CloseConnection] else [])
  {
    if Starts(props, env) {
      BatchBodyKinds(env, {SaveAndCloseKind});
      BatchBodyKinds(env, {LogoutKind});
      TraceSplit(props, env, {SaveAndCloseKind});
      TraceSplit(props, env, {LogoutKind});
    }
  }

  /** The gate events, in trace order. */
  function Gates(t: seq<Event>): seq<Event> {
    Only(t, GateKinds)
  }

  /** Gate events in the order `process` passes them (walk, connect, lock, read the
      data view), each one reached only when the one before it passed. */
  predicate InGateOrder(g: seq<Event>) {
    && |g| <= 4
    && (forall i :: 0 <= i < |g| ==> g[i].Kind() == [WalkKind, ConnectKind, LockKind, ReadKind][i])
    && (forall i :: 0 <= i < |g| - 1 ==> g[i].ok)
  }

  /** Gate events are in order when each position holds its gate and each gate
      followed by another passed. */
  lemma InGateOrderOf(g: seq<Event>)
    requires |g| <= 4
    requires |g| > 0 ==> g[0].Walk? && (|g| > 1 ==> g[0].ok)
    requires |g| > 1 ==> g[1].Connect? && (|g| > 2 ==> g[1].ok)
    requires |g| > 2 ==> g[2].Lock? && (|g| > 3 ==> g[2].ok)
    requires |g| > 3 ==> g[3].ReadDataView?
    ensures InGateOrder(g)
  {
    forall i | 0 <= i < |g|
      ensures g[i].Kind() == [WalkKind, ConnectKind, LockKind, ReadKind][i]
    {
      if i == 0 {} else if i == 1 {} else if i == 2 {} else {}
    }
  }

  /** The gate events of a started batch whose `try` block opens with the gate
      events `gates` and then performs no more of them. */
  lemma GateTrace(props: Properties, env: Environment, gates: seq<Event>, rest: seq<Event>)
    requires Starts(props, env) && RunBatch(env).trace == gates + rest
    requires forall i :: 0 <= i < |gates| ==> gates[i].Kind() in GateKinds
    requires Only(rest, GateKinds) == []
    ensures Gates(Process(props, env).trace) == [Walk(props.requestDirectory.value, env.walk.Some?)] + gates
  {
    var walk := Walk(props.requestDirectory.value, env.walk.Some?);
    TraceSplit(props, env, GateKinds);
    OnlyAppend(gates, rest, GateKinds);
    OnlyAll(gates, GateKinds);
    OnlyNone([SaveAndCloseGlobal, CloseConnection], GateKinds);
    assert Only([walk], GateKinds) == [walk];
    assert gates + [] == gates;
  }

  /** Of the kinds neither the walk nor the cleanup has, a started batch performs
      exactly what its `try` block performs. */
  lemma BodyOnly(props: Properties, env: Environment, kinds: set<EventKind>)
    requires Starts(props, env)
    requires WalkKind !in kinds && SaveAndCloseKind !in kinds && LogoutKind !in kinds
    ensures Only(Process(props, env).trace, kinds) == Only(RunBatch(env).trace, kinds)
  {
    TraceSplit(props, env, kinds);
    OnlyNone([Walk(props.requestDirectory.value, env.walk.Some?)], kinds);
    OnlyNone([SaveAndCloseGlobal, CloseConnection], kinds);
  }

  /** The gate events and the file events of the lock-failure branch. */
  lemma RejectGates(props: Properties, env: Environment)
    requires Starts(props, env) && HasRequests(env) && env.connects && !env.locks
    ensures Gates(Process(props, env).trace) == [Walk(props.requestDirectory.value, true), Connect(true), Lock(false)]
    ensures Only(Process(props, env).trace, {ParseKind, WriteKind, ReadKind}) == []
  {
    var paths := Discover(env.walk.value);
    var gates := [Connect(true), Lock(false)];
    RejectBody(env);
    RejectAvoids(paths, GateKinds);
    GateTrace(props, env, gates, RejectAll(paths));
    RejectAvoids(paths, {ParseKind, WriteKind, ReadKind});
    OnlyAppend(gates, RejectAll(paths), {ParseKind, WriteKind, ReadKind});
    BodyOnly(props, env, {ParseKind, WriteKind, ReadKind});
  }

  /** The gate events of the branch that processes the files. */
  lemma ProcessGates(props: Properties, env: Environment)
    requires Starts(props, env) && HasRequests(env) && env.connects && env.locks && Usable(env.dataView)
    ensures Gates(Process(props, env).trace) ==
      [Walk(props.requestDirectory.value, true), Connect(true), Lock(true), ReadDataView(true)]
  {
    var paths := Discover(env.walk.value);
    ProcessBody(env);
    LoopAvoids(env, env.dataView.value, paths, GateKinds);
    GateTrace(props, env, [Connect(true), Lock(true), ReadDataView(true)], ProcessFiles(env, env.dataView.value, paths));
  }

  /** The gate events when the walk finds nothing to process. */
  lemma IdleGates(props: Properties, env: Environment)
    requires Starts(props, env) && !HasRequests(env)
    ensures Gates(Process(props, env).trace) == [Walk(props.requestDirectory.value, env.walk.Some?)]
    ensures Only(Process(props, env).trace, FileKinds) == []
  {
    IdleBody(env);
    GateTrace(props, env, [], []);
    BodyOnly(props, env, FileKinds);
  }

  /** The gate events when the connection fails. */
  lemma ConnectGates(props: Properties, env: Environment)
    requires Starts(props, env) && HasRequests(env) && !env.connects
    ensures Gates(Process(props, env).trace) == [Walk(props.requestDirectory.value, true), Connect(false)]
  {
    ConnectBody(env);
    GateTrace(props, env, [Connect(false)], []);
  }

  /** The gate events when the data view is null or empty. */
  lemma DataViewGates(props: Properties, env: Environment)
    requires Starts(props, env) && HasRequests(env) && env.connects && env.locks && !Usable(env.dataView)
    ensures Gates(Process(props, env).trace) ==
      [Walk(props.requestDirectory.value, true), Connect(true), Lock(true), ReadDataView(false)]
    ensures Only(Process(props, env).trace, FileKinds) == []
  {
    DataViewBody(env);
    GateTrace(props, env, [Connect(true), Lock(true), ReadDataView(false)], []);
    OnlyNone([Connect(true), Lock(true), ReadDataView(false)], FileKinds);
    BodyOnly(props, env, FileKinds);
  }

  /** The gates are passed in order, each one reached only when the one before it
      passed, and connecting only when the walk found a request file. */
  lemma GateOrder(props: Properties, env: Environment)
    ensures var g := Gates(Process(props, env).trace);
      && InGateOrder(g)
      && (|g| >= 2 <==> Starts(props, env) && HasRequests(env))
  {
    if !Starts(props, env) {
    } else if !HasRequests(env) {
      IdleGates(props, env);
    } else if !env.connects {
      ConnectGates(props, env);
    } else if !env.locks {
      RejectGates(props, env);
    } else if !Usable(env.dataView) {
      DataViewGates(props, env);
    } else {
      ProcessGates(props, env);
    }
    InGateOrderOf(Gates(Process(props, env).trace));
  }

  /** Files are touched only once connected and once the lock has been tried, and
      parsed or written only once a usable data view has been read. */
  lemma FilesNeedGates(props: Properties, env: Environment)
    ensures var t := Process(props, env).trace;
      var g := Gates(t);
      && (Only(t, FileKinds) != [] ==> |g| >= 3 && g[1] == Connect(true))
      && (Only(t, {ParseKind, WriteKind}) != [] ==> |g| == 4 && g[3] == ReadDataView(true))
  {
    var t := Process(props, env).trace;
    if !Starts(props, env) {
    } else if !HasRequests(env) {
      IdleGates(props, env);
      OnlyNarrow(t, FileKinds, {ParseKind, WriteKind});
    } else if !env.connects {
      ConnectGates(props, env);
      ConnectFailure(props, env);
      OnlyNarrow(t, FileKinds + {LockKind, ReadKind}, FileKinds);
      OnlyNarrow(t, FileKinds + {LockKind, ReadKind}, {ParseKind, WriteKind});
    } else if !env.locks {
      RejectGates(props, env);
      OnlyNarrow(t, {ParseKind, WriteKind, ReadKind}, {ParseKind, WriteKind});
    } else if !Usable(env.dataView) {
      DataViewGates(props, env);
      OnlyNarrow(t, FileKinds, {ParseKind, WriteKind});
    } else {
      ProcessGates(props, env);
    }
  }

  /** The events of `t` before position `n` are none of the file events. */
  predicate NoFileEventBefore(t: seq<Event>, n: nat) {
    forall i :: 0 <= i < |t| && t[i].Kind() in FileKinds ==> i >= n
  }

  /** In the lock-failure branch the trace opens with the walk, the successful
      connection and the failed lock; only then come the file events. */
  lemma RejectOpening(props: Properties, env: Environment)
    requires Starts(props, env) && HasRequests(env) && env.connects && !env.locks
    ensures var t := Process(props, env).trace;
      |t| >= 3 && t[1] == Connect(true) && t[2] == Lock(false) && NoFileEventBefore(t, 3)
  {
    RejectBody(env);
    var t := Process(props, env).trace;
    assert t[0].Walk? && t[1] == Connect(true) && t[2] == Lock(false);
  }

  /** In the branch that processes the files the trace opens with the walk and the
      three passed gates; only then come the file events. */
  lemma ProcessOpening(props: Properties, env: Environment)
    requires Starts(props, env) && HasRequests(env) && env.connects && env.locks && Usable(env.dataView)
    ensures var t := Process(props, env).trace;
      && |t| >= 4 && t[1] == Connect(true) && t[2] == Lock(true) && t[3] == ReadDataView(true)
      && NoFileEventBefore(t, 4)
  {
    ProcessBody(env);
    var t := Process(props, env).trace;
    assert t[0].Walk? && t[1] == Connect(true) && t[2] == Lock(true) && t[3] == ReadDataView(true);
  }

  /** A projection that comes out empty means no event of the trace has those kinds. */
  lemma {:induction false} OnlyEmptyAt(t: seq<Event>, kinds: set<EventKind>)
    requires Only(t, kinds) == []
    ensures forall i :: 0 <= i < |t| ==> t[i].Kind() !in kinds
    decreases |t|
  {
    if |t| > 0 {
      assert t[0].Kind() !in kinds;
      OnlyEmptyAt(t[1..], kinds);
      forall i | 1 <= i < |t| ensures t[i].Kind() !in kinds {
        assert t[i] == t[1..][i - 1];
      }
    }
  }

  /** In every branch that neither rejects nor processes the files, the trace holds
      no file event at all. */
  lemma NoFileEvents(props: Properties, env: Environment)
    requires !(Starts(props, env) && HasRequests(env) && env.connects && (!env.locks || Usable(env.dataView)))
    ensures Only(Process(props, env).trace, FileKinds) == []
  {
    var t := Process(props, env).trace;
    if !Starts(props, env) {
    } else if !HasRequests(env) {
      IdleGates(props, env);
    } else if !env.connects {
      ConnectFailure(props, env);
      OnlyNarrow(t, FileKinds + {LockKind, ReadKind}, FileKinds);
    } else {
      DataViewGates(props, env);
    }
  }

  /** Every file event of `t` comes after a successful connection and, after that,
      an attempt to lock; every parse and every write comes after a usable data
      view was read. */
  predicate GatedFiles(t: seq<Event>) {
    && (forall i :: 0 <= i < |t| && t[i].Kind() in FileKinds ==>
          exists c, l :: 0 <= c < l < i && t[c] == Connect(true) && t[l].Lock?)
    && (forall i :: 0 <= i < |t| && (t[i].Parse? || t[i].Write?) ==>
          exists r :: 0 <= r < i && t[r] == ReadDataView(true))
  }

  /** The lock-failure branch moves and logs files only after the connection and
      the failed lock, and parses and writes nothing. */
  lemma RejectAfterGates(props: Properties, env: Environment)
    requires Starts(props, env) && HasRequests(env) && env.connects && !env.locks
    ensures GatedFiles(Process(props, env).trace)
  {
    var t := Process(props, env).trace;
    RejectOpening(props, env);
    forall i | 0 <= i < |t| && t[i].Kind() in FileKinds
      ensures exists c, l :: 0 <= c < l < i && t[c] == Connect(true) && t[l].Lock?
    {
      assert t[1] == Connect(true) && t[2].Lock?;
    }
    RejectGates(props, env);
    OnlyEmptyAt(t, {ParseKind, WriteKind, ReadKind});
    forall i | 0 <= i < |t| ensures !t[i].Parse? && !t[i].Write? {
      assert t[i].Kind() !in {ParseKind, WriteKind, ReadKind};
    }
  }

  /** The branch that processes the files touches them only after the three passed
      gates. */
  lemma ProcessAfterGates(props: Properties, env: Environment)
    requires Starts(props, env) && HasRequests(env) && env.connects && env.locks && Usable(env.dataView)
    ensures GatedFiles(Process(props, env).trace)
  {
    var t := Process(props, env).trace;
    ProcessOpening(props, env);
    forall i | 0 <= i < |t| && t[i].Kind() in FileKinds
      ensures exists c, l :: 0 <= c < l < i && t[c] == Connect(true) && t[l].Lock?
    {
      assert t[1] == Connect(true) && t[2].Lock?;
    }
    forall i | 0 <= i < |t| && (t[i].Parse? || t[i].Write?)
      ensures exists r :: 0 <= r < i && t[r] == ReadDataView(true)
    {
      assert t[i].Kind() in FileKinds;
      assert t[3] == ReadDataView(true);
    }
  }

  /** Every file event comes after a successful connection and, after that, an
      attempt to lock; every parse and every write comes after a usable data view
      was read. */
  lemma FilesAfterGates(props: Properties, env: Environment)
    ensures var t := Process(props, env).trace;
      && (forall i :: 0 <= i < |t| && t[i].Kind() in FileKinds ==>
            exists c, l :: 0 <= c < l < i && t[c] == Connect(true) && t[l].Lock?)
      && (forall i :: 0 <= i < |t| && (t[i].Parse? || t[i].Write?) ==>
            exists r :: 0 <= r < i && t[r] == ReadDataView(true))
  {
    var t := Process(props, env).trace;
    if Starts(props, env) && HasRequests(env) && env.connects && !env.locks {
      RejectAfterGates(props, env);
    } else if Starts(props, env) && HasRequests(env) && env.connects && Usable(env.dataView) {
      ProcessAfterGates(props, env);
    } else {
      NoFileEvents(props, env);
      OnlyEmptyAt(t, FileKinds);
    }
  }

  /** With no request file found, or when the walk throws `IOException`, the batch
      returns SUCCESS having only walked and cleaned up. */
  lemma NothingToProcess(props: Properties, env: Environment)
    requires Starts(props, env) && !HasRequests(env)
    ensures Process(props, env).code == Success
    ensures Process(props, env).trace == [Walk(props.requestDirectory.value, env.walk.Some?), SaveAndCloseGlobal, CloseConnection]
  {
  }

  /** When the connection fails the batch returns MSTT_ACCESS without locking,
      reading or touching any file. */
  lemma ConnectFailure(props: Properties, env: Environment)
    requires Starts(props, env) && HasRequests(env) && !env.connects
    ensures Process(props, env).code == MsttAccess
    ensures Only(Process(props, env).trace, FileKinds + {LockKind, ReadKind}) == []
  {
    ConnectBody(env);
    OnlyNone([Connect(false)], FileKinds + {LockKind, ReadKind});
    BodyOnly(props, env, FileKinds + {LockKind, ReadKind});
  }

  /** In the lock-failure branch the moves and log saves are those of the
      rejection loop. */
  lemma RejectProjection(props: Properties, env: Environment, kinds: set<EventKind>)
    requires Starts(props, env) && HasRequests(env) && env.connects && !env.locks
    requires kinds == {MoveKind} || kinds == {LogKind}
    ensures Only(Process(props, env).trace, kinds) == Only(RejectAll(Discover(env.walk.value)), kinds)
  {
    var gates := [Connect(true), Lock(false)];
    RejectBody(env);
    BodyOnly(props, env, kinds);
    OnlyNone(gates, kinds);
    OnlyAppend(gates, RejectAll(Discover(env.walk.value)), kinds);
  }

  /** When the lock fails the batch returns FAILED_TO_LOCK_TABLE: nothing is read,
      parsed or written, and every discovered file is moved KO and its log saved KO,
      once each, in discovery order. */
  lemma LockFailure(props: Properties, env: Environment)
    requires Starts(props, env) && HasRequests(env) && env.connects && !env.locks
    ensures var t := Process(props, env).trace;
      var paths := Discover(env.walk.value);
      var moves := Only(t, {MoveKind});
      var logs := Only(t, {LogKind});
      && Process(props, env).code == FailedToLockTable
      && Only(t, {ParseKind, WriteKind, ReadKind}) == []
      && |moves| == |paths| && |logs| == |paths|
      && (forall i :: 0 <= i < |paths| ==> moves[i] == Move(paths[i], false))
      && (forall i :: 0 <= i < |paths| ==> logs[i] == SaveLog(paths[i], false))
  {
    RejectGates(props, env);
    RejectProjection(props, env, {MoveKind});
    RejectProjection(props, env, {LogKind});
    RejectAllEffects(Discover(env.walk.value));
  }

  /** When the data view is null or empty the batch returns FAILED_TO_ACCESS_TABLE
      and parses, writes, moves and logs nothing: the request files stay in place. */
  lemma DataViewFailure(props: Properties, env: Environment)
    requires Starts(props, env) && HasRequests(env) && env.connects && env.locks && !Usable(env.dataView)
    ensures Process(props, env).code == FailedToAccessTable
    ensures Only(Process(props, env).trace, FileKinds) == []
  {
    DataViewGates(props, env);
  }

  /** When every gate passes, the parses, moves and log saves are those of the
      file loop. */
  lemma ProcessProjection(props: Properties, env: Environment, kinds: set<EventKind>)
    requires Starts(props, env) && HasRequests(env) && env.connects && env.locks && Usable(env.dataView)
    requires kinds == {ParseKind} || kinds == {MoveKind} || kinds == {LogKind}
    ensures Only(Process(props, env).trace, kinds) ==
      Only(ProcessFiles(env, env.dataView.value, Discover(env.walk.value)), kinds)
  {
    var gates := [Connect(true), Lock(true), ReadDataView(true)];
    ProcessBody(env);
    BodyOnly(props, env, kinds);
    OnlyNone(gates, kinds);
    OnlyAppend(gates, ProcessFiles(env, env.dataView.value, Discover(env.walk.value)), kinds);
  }

  /** When every gate passes the batch returns SUCCESS; each discovered file is
      parsed once, then moved once and its log saved once, in discovery order, with
      status OK exactly when one of its writes completed. */
  lemma ProcessedFiles(props: Properties, env: Environment)
    requires Starts(props, env) && HasRequests(env) && env.connects && env.locks && Usable(env.dataView)
    ensures var t := Process(props, env).trace;
      var paths := Discover(env.walk.value);
      var table := env.dataView.value;
      var parses := Only(t, {ParseKind});
      var moves := Only(t, {MoveKind});
      var logs := Only(t, {LogKind});
      && Process(props, env).code == Success
      && |parses| == |paths| && |moves| == |paths| && |logs| == |paths|
      && (forall i :: 0 <= i < |paths| ==> parses[i] == Parse(paths[i]))
      && (forall i :: 0 <= i < |paths| ==> moves[i] == Move(paths[i], SomeWriteOk(FileRun(env, table, paths[i]).events)))
      && (forall i :: 0 <= i < |paths| ==> logs[i] == SaveLog(paths[i], SomeWriteOk(FileRun(env, table, paths[i]).events)))
  {
    ProcessProjection(props, env, {ParseKind});
    ProcessProjection(props, env, {MoveKind});
    ProcessProjection(props, env, {LogKind});
    FileLoopEffects(env, env.dataView.value, Discover(env.walk.value));
  }

  /** The paths the moves of a trace put files at, in trace order. */
  function MoveTargets(results: string, stamp: Path -> string, t: seq<Event>): seq<Path>
    decreases |t|
  {
    if |t| == 0 then []
    else (if t[0].Move? then [MoveTarget(results, stamp, t[0])] else []) + MoveTargets(results, stamp, t[1..])
  }

  /** No outcome path is a request file. */
  lemma {:induction false} MoveTargetsAreOutcomes(results: string, stamp: Path -> string, t: seq<Event>)
    ensures forall q :: q in MoveTargets(results, stamp, t) ==> !IsRequestFile(q)
    decreases |t|
  {
    if |t| > 0 {
      MoveTargetsAreOutcomes(results, stamp, t[1..]);
      if t[0].Move? {
        OutcomeNaming(results, t[0].source, stamp(t[0].source), t[0].ok);
      }
    }
  }

  /** A later walk that also sees every file this batch moved selects exactly what it
      would have selected without them: outcome files are never picked up again. */
  lemma MovedFilesNotRediscovered(props: Properties, env: Environment, found: seq<Path>)
    requires ValidateProperties(props)
    ensures var moved := MoveTargets(props.resultsDirectory.value, env.stamp, Process(props, env).trace);
      Discover(found + moved) == Discover(found)
  {
    var moved := MoveTargets(props.resultsDirectory.value, env.stamp, Process(props, env).trace);
    MoveTargetsAreOutcomes(props.resultsDirectory.value, env.stamp, Process(props, env).trace);
    DiscoverIgnores(found, moved);
  }

  /** The lines of a file are run in order, each against the same data view: the
      writes of its first `k` lines are a prefix of the writes of all its lines,
      and a status set by one of them is never cleared by a later line. */
  lemma {:induction false} StatusSticks(table: seq<DataViewRow>, path: Path, lines: seq<CostCenter>, k: nat, setters: (Path, nat) -> nat)
    requires k <= |lines|
    ensures var early := ApplyLines(table, path, lines[..k], setters);
      var full := ApplyLines(table, path, lines, setters);
      && early.events <= full.events
      && (early.status ==> full.status)
    decreases |lines|
  {
    if k == |lines| {
      assert lines[..k] == lines;
    } else {
      var init := lines[..|lines| - 1];
      assert lines[..k] == init[..k];
      StatusSticks(table, path, init, k, setters);
    }
  }

  /** A line completes: it is attempted and every setter call of its write completes. */
  predicate LineCompletes(table: seq<DataViewRow>, line: CostCenter, budget: nat) {
    var r := ApplyLine(table, line, budget);
    |r| == 1 && r[0].ok
  }

  /** Line `k` adds exactly its own writes, made with the budget the setters give
      line `k`, right after those of the lines before it, and the later lines only
      append to them: no line's writes are dropped or reordered. */
  lemma {:induction false} LineWritesInOrder(table: seq<DataViewRow>, path: Path, lines: seq<CostCenter>, k: nat, setters: (Path, nat) -> nat)
    requires k < |lines|
    ensures var before := ApplyLines(table, path, lines[..k], setters).events;
      var own := ApplyLine(table, lines[k], setters(path, k));
      && ApplyLines(table, path, lines[..k + 1], setters).events == before + own
      && before + own <= ApplyLines(table, path, lines, setters).events
  {
    var upTo := lines[..k + 1];
    assert upTo[..k] == lines[..k] && upTo[k] == lines[k];
    StatusSticks(table, path, lines, k + 1, setters);
  }

  /** Adding a line to a file sets its status exactly when the status was already
      set or the new line completes. */
  lemma StatusStep(table: seq<DataViewRow>, path: Path, lines: seq<CostCenter>, setters: (Path, nat) -> nat)
    requires |lines| > 0
    ensures var last := |lines| - 1;
      ApplyLines(table, path, lines, setters).status <==>
        ApplyLines(table, path, lines[..last], setters).status || LineCompletes(table, lines[last], setters(path, last))
  {
  }

  /** A line that completes sets the status of its file, whatever the lines after it do. */
  lemma {:induction false} CompletedLineSetsStatus(table: seq<DataViewRow>, path: Path, lines: seq<CostCenter>, k: nat, setters: (Path, nat) -> nat)
    requires k < |lines| && LineCompletes(table, lines[k], setters(path, k))
    ensures ApplyLines(table, path, lines, setters).status
  {
    var upTo := lines[..k + 1];
    assert upTo[..k] == lines[..k] && upTo[k] == lines[k];
    StatusStep(table, path, upTo, setters);
    StatusSticks(table, path, lines, k + 1, setters);
  }

  /** A file's status is only ever set by a line that completes. */
  lemma {:induction false} StatusNeedsCompletedLine(table: seq<DataViewRow>, path: Path, lines: seq<CostCenter>, setters: (Path, nat) -> nat)
    requires ApplyLines(table, path, lines, setters).status
    ensures exists k :: 0 <= k < |lines| && LineCompletes(table, lines[k], setters(path, k))
    decreases |lines|
  {
    var last := |lines| - 1;
    StatusStep(table, path, lines, setters);
    if !LineCompletes(table, lines[last], setters(path, last)) {
      var init := lines[..last];
      StatusNeedsCompletedLine(table, path, init, setters);
      var k :| 0 <= k < |init| && LineCompletes(table, init[k], setters(path, k));
      assert init[k] == lines[k];
    }
  }

  /** A rejected line or a write that throws does not stop the file: its status is
      true exactly when some line of it, tried with that line's own setter budget,
      completes. */
  lemma {:induction false} StatusIffSomeLineCompletes(table: seq<DataViewRow>, path: Path, lines: seq<CostCenter>, setters: (Path, nat) -> nat)
    ensures ApplyLines(table, path, lines, setters).status <==>
      exists k :: 0 <= k < |lines| && LineCompletes(table, lines[k], setters(path, k))
  {
    if ApplyLines(table, path, lines, setters).status {
      StatusNeedsCompletedLine(table, path, lines, setters);
    } else {
      forall k | 0 <= k < |lines|
        ensures !LineCompletes(table, lines[k], setters(path, k))
      {
        if LineCompletes(table, lines[k], setters(path, k)) {
          CompletedLineSetsStatus(table, path, lines, k, setters);
        }
      }
    }
  }

  /** A create of a key the data view lacks, with every setter completing, is one
      completed write to a new row. */
  lemma CreateAbsent(table: seq<DataViewRow>, line: CostCenter, budget: nat)
    requires line.action == Creation && FindRow(table, line).None? && budget >= 6
    ensures ApplyLine(table, line, budget) == [Write(NewRow, CreateAssignments(line), true)]
  {
    ApplyLinePolicy(table, line, budget);
    assert |CreateAssignments(line)| == 6;
  }

  /** The per-line loop over two lines: the first line's writes, then the second's. */
  lemma TwoLines(table: seq<DataViewRow>, path: Path, a: CostCenter, b: CostCenter, setters: (Path, nat) -> nat)
    ensures var first := ApplyLine(table, a, setters(path, 0));
      var second := ApplyLine(table, b, setters(path, 1));
      ApplyLines(table, path, [a, b], setters).events == [] + first + second
  {
    assert [a, b][..1] == [a];
    assert [a][..0] == [];
  }

  /** The data view is read once and never refreshed: two identical creates of a key
      the data view lacks are both attempted and both complete, although the row the
      first one creates would have matched the second line. */
  lemma StaleDataViewDuplicatesCreate(table: seq<DataViewRow>, path: Path, line: CostCenter, setters: (Path, nat) -> nat)
    requires line.action == Creation && FindRow(table, line).None?
    requires setters(path, 0) >= 6 && setters(path, 1) >= 6
    ensures var run := ApplyLines(table, path, [line, line], setters);
      && run.status
      && run.events == [Write(NewRow, CreateAssignments(line), true), Write(NewRow, CreateAssignments(line), true)]
      && Matches(Apply(map[], CreateAssignments(line)), line)
  {
    var w := Write(NewRow, CreateAssignments(line), true);
    var run := ApplyLines(table, path, [line, line], setters);
    CreateAbsent(table, line, setters(path, 0));
    CreateAbsent(table, line, setters(path, 1));
    TwoLines(table, path, line, line, setters);
    assert run.events == [w, w];
    assert run.events[0].Write? && run.events[0].ok;
    CreateWritesLine(map[], line);
  }
}

=== FILE: text.dfy ===
/** String operations the processor relies on, stated over `seq<char>`. */
module Text {
  import opened Wrappers

  /** `String.endsWith`. */
  predicate EndsWith(s: string, suffix: string) {
    |suffix| <= |s| && s[|s| - |suffix|..] == suffix
  }

  /** Whether a string ends with a suffix is decided by its last characters only. */
  lemma EndsWithAfter(prefix: string, s: string, suffix: string)
    requires |suffix| <= |s|
    ensures EndsWith(prefix + s, suffix) <==> EndsWith(s, suffix)
  {
    assert (prefix + s)[|prefix + s| - |suffix|..] == s[|s| - |suffix|..];
  }

  /** `String.lastIndexOf(char)`, with `None` for Java's -1. */
  function LastIndexOf(s: string, c: char): (r: Option<nat>)
    ensures r.Some? ==> r.value < |s| && s[r.value] == c
    ensures r.Some? ==> forall j :: r.value < j < |s| ==> s[j] != c
    ensures r.None? <==> c !in s
    decreases |s|
  {
    if |s| == 0 then None
    else if s[|s| - 1] == c then Some(|s| - 1)
    else
      assert s == s[..|s| - 1] + [s[|s| - 1]];
      LastIndexOf(s[..|s| - 1], c)
  }

  predicate IsUpper(c: char) {
    'A' <= c <= 'Z'
  }

  function LowerChar(c: char): char {
    if IsUpper(c) then (c as int + 32) as char else c
  }

  /** `String.toLowerCase`, restricted to ASCII letters. */
  function ToLower(s: string): (r: string)
    ensures |r| == |s|
    ensures forall i :: 0 <= i < |r| ==> !IsUpper(r[i])
    ensures forall i :: 0 <= i < |s| && !IsUpper(s[i]) ==> r[i] == s[i]
    ensures forall i :: 0 <= i < |s| && IsUpper(s[i]) ==> r[i] as int == s[i] as int + 32
  {
    seq(|s|, i requires 0 <= i < |s| => LowerChar(s[i]))
  }
}

=== FILE: wrappers.dfy ===
/** The optional-value datatype used for Java's nullable references and `Optional`. */
module Wrappers {

  datatype Option<+T> = None | Some(value: T)
}
